=== FILE: README.md ===
# Tournament team registry

A Dafny model of the `Tourney` cog of the PugsNTourney Discord bot: the
team-registration state machine behind the `register`, `invite`, `accept`,
`uninvite`, `reject`, `leave`, `disband` and `kick` commands.

The cog keeps two documents:

- `teams` maps a team name to a record with `name`, `leader`, `members`,
  `invites`, `wins`, `losses` and `games`;
- `players` maps a member id to the name of that member's team. It is a
  shadow index of the members lists.

The model holds both as an immutable `Registry.State`: a
`map<TeamName, Team>` and a `map<PlayerId, TeamName>`. Player ids are `int`.
The cog keys `players` by `str(id)`; that conversion is injective, so the
model keys the index by the id itself. The one place where the key type
matters, the integer-key pop in `kick`, is modelled on its own
(`Commands.KickAsWritten`).

Each command is a pure function from a state to an `Outcome`:

- `Done(state)`: the command ran.
- `Refused(reason)`: a guard replied with an error. Nothing changed.
- `Raised(state, fault)`: the cog raised an exception it does not catch.
  `state` is the registry as far as the command had changed it.

The guards run in the cog's order. `accept`, `reject` and `leave` look up
`teams[name]` without checking that the name exists. The model does not
turn that into a precondition: an unknown name gives
`Raised(s, NoSuchTeam)` with the state unchanged.

Files:

- `builtins.dfy` (`Builtins`): the Python list, dict and string operations the cog uses. `list.remove`
  is `RemoveFirst`, the disband pop loop is `PopAll`, and `" ".join` is
  `Join`. `Split` (`str.split(" ")`) is only there as `Join`'s inverse.
- `registry.dfy` (`Registry`): the data model, the lookups `is_on_team`,
  `team_exists`, `get_team_name`, `get_team` and `create_new_team`, and the
  invariants.
- `commands.dfy` (`Commands`): the eight commands, plus the cog's own kick.
- `invariants.dfy` (`Invariants`): each command preserves the registry
  invariant.
- `lifecycle.dfy` (`Lifecycle`): commands that undo each other, commands
  that cannot be repeated, and what the cog's kick does.
- `session.dfy` (`Session`): any sequence of commands starting from a valid
  registry ends in a valid registry. With the cog's own kick in place of the
  intended one, any sequence keeps the weaker `Registry.Consistent`.

The invariant `Registry.Valid` has these parts:

- every team is stored under its own name;
- an id is indexed exactly when some team lists it as a member, and then the
  index names that team;
- no id is a member of two teams;
- the leader is a member;
- members and invites have no duplicates;
- no id is both invited and a member.

`get_team_name` scans the teams in dict insertion order and returns the first
team that lists the id. A Dafny map has no order, so the commands that use
this scan require `Registry.WellFormed`: every team is stored under its own
name, and no id is a member of two teams. When that holds, the scan gives the
same answer in any order. The commands that need it are invite, uninvite,
disband and kick.

Two results show that this requirement always holds in practice:

- With the intended kick (`Commands.Kick`), `Session.Run` proves that every
  command keeps `Valid`, which implies `WellFormed`.
- With the cog's own kick (`Commands.KickAsWritten`), `Valid` is lost. The
  kicked player stays in the index. `Session.RunAsWritten` proves that every
  command, and every state an exception leaves behind, keeps the weaker
  `Registry.Consistent`. `Consistent` says three things: `WellFormed` holds,
  every listed member is indexed to their team, and no member list has
  duplicates. `Invariants.ValidIsConsistent` shows that `Valid` implies it.

Either way, every state reachable from the empty registry satisfies
`WellFormed`.

`WellFormed` alone is not kept by every command. Take a registry where team
"A" lists player 1 but the index lacks 1. Then 1 can register "B" and end up
on two teams. The stronger invariants rule such a registry out.

## Model

| member | source | states |
|---|---|---|
| `Builtins.RemoveFirst` | cogs/tourney.py:135 | `list.remove(x)` deletes exactly one occurrence of `x`. The multiset of the result is the input's minus one `x`, and nothing new appears. The order of the rest is stated by `Builtins.RemoveFirstAt`. |
| `Builtins.RemoveFirstAt` | cogs/tourney.py:135 | `list.remove(x)` cuts out exactly the first position holding `x`. Every other element keeps its order. |
| `Builtins.RemoveFirstNoDup` | cogs/tourney.py:195 | On a duplicate-free list, `remove(x)` deletes `x` entirely, keeps every other element, and keeps the list duplicate-free. |
| `Builtins.RemoveFirstAppended` | cogs/tourney.py:160 | Removing an element just appended to a list that lacked it gives back the original list. |
| `Builtins.Join` | cogs/tourney.py:83 | `" ".join` of one word is that word. The first word is a prefix of the result. When no word holds a space, the result holds one space fewer than there are words. |
| `Builtins.SplitJoin` | cogs/tourney.py:83 | For a non-empty list of words without spaces, splitting the joined name at single spaces gives the words back. So distinct argument lists name distinct teams. |
| `Builtins.PopAll` | cogs/tourney.py:222-223 | The pop loop completes exactly when the members are distinct and all indexed. It then removes exactly the members' keys from the index. If it stops early, it has only removed keys and has changed no value. |
| `Builtins.PopAllRemovesPrefix` | cogs/tourney.py:222-223 | Wherever the pop loop stops, it has removed exactly the keys of a prefix of the member list. |
| `Registry.IsOnTeam` | cogs/tourney.py:29-31 | `is_on_team` asks only the index. Under the invariant it holds exactly when some team lists the id. |
| `Registry.TeamExists` | cogs/tourney.py:42-43 | `team_exists` asks only the teams document. Under the invariant a name exists exactly when some player is on that team. |
| `Registry.GetTeamName` | cogs/tourney.py:33-40 | Gives a name exactly when the id is indexed and some team lists it, and that team does list the id. |
| `Registry.GetTeam` | cogs/tourney.py:45-48 | Returns None exactly for an unindexed id. Raises KeyError exactly when the id is indexed but no team lists it. Otherwise returns the stored record of a team listing the id. |
| `Registry.CreateNewTeam` | cogs/tourney.py:50-66 | A new team satisfies the per-team invariant. Its leader is its only member, it has no invites, and its record is zeroed. |
| `Registry.LookupsFollowIndex` | cogs/tourney.py:29-48 | Under the invariant, `is_on_team` holds exactly when some team lists the id. `get_team_name` and `get_team` then return the team the index names. |
| `Commands.Register` | cogs/tourney.py:72-91 | Refused as already on a team, as no name, or as a duplicate, in that order. On success only the new team, with the actor as leader, and the actor's index entry are added. |
| `Commands.Invite` | cogs/tourney.py:96-117 | Runs exactly when the actor leads the team that lists them and the target is neither invited nor a member. The target is appended to the invites. Nothing else changes. |
| `Commands.Accept` | cogs/tourney.py:123-139 | Refused for an indexed actor. Raises KeyError for an unknown team. Runs exactly when the actor is invited. The actor moves from invites to members and is indexed to the team. |
| `Commands.Uninvite` | cogs/tourney.py:144-161 | Leader only. Runs exactly when the target is invited. Exactly that invite is removed; members and the index stay the same. |
| `Commands.Reject` | cogs/tourney.py:166-175 | Raises KeyError for an unknown team. Any other refusal is "no invite". On success only the actor's invite is gone, and the index stays the same. |
| `Commands.Leave` | cogs/tourney.py:180-198 | Runs exactly when an indexed actor is a member of the named team and is not its leader. The actor leaves the members and the index. The leader stays. |
| `Commands.Disband` | cogs/tourney.py:203-227 | Refused as not on a team, wrong team or not leader, in that order. Raises exactly on a dangling actor (state unchanged) or when the pop loop fails. On success the team and exactly its members' index entries are gone. If a pop raises, the teams are unchanged and the index has lost exactly a prefix of the members. |
| `Commands.Kick` | cogs/tourney.py:232-251 | The intended kick. Leader only. A target who is not a member is refused as not a member, and the leader is refused as leader. The target leaves the members and the index. Other teams stay the same. |
| `Commands.KickAsWritten` | cogs/tourney.py:232-251 | The cog's kick never completes. It has the same first guards as the other leader commands, and refuses a target who is not a member. When its guards pass, the team is saved without the target, and the pop then raises with the index unchanged. |
| `Invariants.RegisterPreservesValid` | cogs/tourney.py:88-89 | A successful registration keeps the registry invariant. |
| `Invariants.InvitePreservesValid` | cogs/tourney.py:108-117 | On a valid registry invite never raises. A successful one keeps the invites duplicate-free and disjoint from the members. |
| `Invariants.AcceptPreservesValid` | cogs/tourney.py:131-139 | A successful accept keeps the invariant. The actor is then a member of exactly the named team, and `get_team_name` finds that team. |
| `Invariants.UninvitePreservesValid` | cogs/tourney.py:156-161 | On a valid registry uninvite never raises. A successful one keeps the invariant. |
| `Invariants.RejectPreservesValid` | cogs/tourney.py:170-175 | A successful reject keeps the invariant. |
| `Invariants.LeavePreservesValid` | cogs/tourney.py:187-198 | A successful leave keeps the invariant, and afterwards no team lists the actor. |
| `Invariants.DisbandPreservesValid` | cogs/tourney.py:205-227 | On a valid registry disband never raises. It runs exactly when the actor leads the team they name, and it keeps the invariant. |
| `Invariants.KickPreservesValid` | cogs/tourney.py:240-251 | On a valid registry the intended kick never raises. It keeps the invariant, and afterwards no team lists the target. |
| `Invariants.KickAsWrittenKeepsWellFormed` | cogs/tourney.py:248-250 | After the cog's kick, teams are still stored under their names and no id is on two teams. |
| `Invariants.ValidIsConsistent` | cogs/tourney.py:29-48 | The intended invariant implies the weaker one the cog's commands keep. |
| `Invariants.RegisterKeepsConsistent` | cogs/tourney.py:72-91 | Register keeps `Consistent`. |
| `Invariants.InviteKeepsConsistent` | cogs/tourney.py:96-117 | Invite keeps `Consistent`. |
| `Invariants.AcceptKeepsConsistent` | cogs/tourney.py:123-139 | Accept keeps `Consistent`: the joining actor was on no team. |
| `Invariants.UninviteKeepsConsistent` | cogs/tourney.py:144-161 | Uninvite keeps `Consistent`. |
| `Invariants.RejectKeepsConsistent` | cogs/tourney.py:166-175 | Reject keeps `Consistent`, even with its second store under the record's own name. |
| `Invariants.LeaveKeepsConsistent` | cogs/tourney.py:180-198 | Leave keeps `Consistent`, and afterwards no team lists the actor. |
| `Invariants.DisbandKeepsConsistent` | cogs/tourney.py:203-227 | Disband keeps `Consistent`. Under it the pop loop always completes, so disband raises only on a dangling actor, and then changes nothing. |
| `Invariants.KickAsWrittenKeepsConsistent` | cogs/tourney.py:232-251 | The cog's kick keeps `Consistent`, including the state its KeyError leaves. |
| `Lifecycle.InviteThenUninviteRestores` | cogs/tourney.py:116-160 | Uninviting a target who was just invited restores the exact registry. |
| `Lifecycle.InviteThenRejectRestores` | cogs/tourney.py:116-174 | Rejecting an invitation that was just sent restores the exact registry. |
| `Lifecycle.AcceptThenLeave` | cogs/tourney.py:135-196 | After accepting, the actor can leave. That restores the index and the member list; only the spent invite is gone. |
| `Lifecycle.RegisterThenDisbandRestores` | cogs/tourney.py:88-225 | Disbanding a team that was just registered restores the exact registry. |
| `Lifecycle.RegisterNameOnce` | cogs/tourney.py:74-86 | Registering the same name again is refused. A new actor gets "duplicate"; the same actor gets "already on a team". |
| `Lifecycle.LeaderCannotLeave` | cogs/tourney.py:191-193 | A leader leaving their own team is refused with "is leader". |
| `Lifecycle.KickTwiceRefused` | cogs/tourney.py:244-246 | A second kick of the same member is refused with "not a member". |
| `Lifecycle.KickAsWrittenStrandsTarget` | cogs/tourney.py:248-250 | After the cog's kick, the target stays indexed while no team lists them. Their lookups raise, and register and accept refuse them. |
| `Lifecycle.KickAsWrittenRemovesLeader` | cogs/tourney.py:240-248 | The cog's kick lets a leader remove themselves. The team keeps a leader who is not a member. That leader's later invite, disband and (cog's) kick then raise. |
| `Lifecycle.KickKeepsLeader` | cogs/tourney.py:240-248 | The intended kick refuses to remove the leader. |
| `Lifecycle.TwoMemberTeamIsReachable` | cogs/tourney.py:88-139 | 1 registers "A", invites 2, and 2 accepts. This reaches a valid registry where team "A" has members [1, 2]. |
| `Lifecycle.StrandedPlayerExample` | cogs/tourney.py:250 | From that registry, 1 kicks 2. With the cog's kick, 2 cannot register "B". With the intended kick, 2 can. |
| `Session.Step` | cogs/tourney.py:72-251 | On a valid registry each command keeps the invariant. The only exception left is the KeyError for an unknown team name, which changes nothing. |
| `Session.Run` | cogs/tourney.py:72-251 | Any sequence of commands from a valid registry ends in a valid registry. |
| `Session.StepAsWritten` | cogs/tourney.py:72-251 | One command as the cog is written keeps `Consistent`, even when it raises. Only the kick raises on the index. Any other exception changes nothing. |
| `Session.RunAsWritten` | cogs/tourney.py:72-251 | Any sequence of the cog's commands, its own kick included, keeps `Consistent`. It also keeps the state each exception leaves. |

## Findings

| source | as written | input that shows it | evidently intended | confidence | as-written member | corrected member |
|---|---|---|---|---|---|---|
| cogs/tourney.py:249-250 | The team is saved without the target. Then `players.pop(player.id)` uses the integer id, but every index key is `str(id)`, so the pop raises KeyError. The target stays indexed while no team lists them. | 1 registers "A", invites 2, 2 accepts, 1 kicks 2. 2 stays indexed to "A" but is not a member. 2's `register B` is refused as "already on a team". | Pop `str(player.id)`, as `leave` and `disband` do, so the kicked member leaves the index. | high (not executed) | `Lifecycle.KickAsWrittenStrandsTarget` | `Commands.Kick` |
| cogs/tourney.py:240-248 | No check that the target differs from the leader. A leader can kick themselves. | 1 registers "A", then 1 kicks 1. Team "A" keeps leader 1, but 1 is not a member. 1's own invite, kick and disband then raise KeyError. | Refuse to kick the leader, as `leave` refuses a leaving leader (cogs/tourney.py:191-193). | medium (not executed) | `Lifecycle.KickAsWrittenRemovesLeader` | `Commands.Kick` |

`Commands.Kick` fixes both defects, and `Session` uses it. Its invariant
preservation is `Invariants.KickPreservesValid`. That it refuses the leader is
`Lifecycle.KickKeepsLeader`.

## Left out

- JSON persistence is not modelled. This covers `__init__`, `save_teams`,
  `save_players`, `refresh_teams`, `refresh_players`, and the save in
  `update_teams` (cogs/tourney.py:10-27, 68-70). A command that completes is
  a pure state transition. A command that raises keeps the in-memory state it
  reached; whether that state was saved is not tracked.
- Reply texts and the `setup` cog registration (cogs/tourney.py:258-259) are
  presentation only. Discord converts a mention to a user id before the
  command runs, so the model takes the resolved id.
- `games`, `wins` and `losses` are only set when a team is created, and no
  command updates them. They are carried as opaque fields.
- Commands run one at a time. Interleaved async handlers are not modelled.
- Dict insertion order is not modelled. `get_team_name`'s scan depends on it
  only when one id is listed by two teams, and the lookups rule that out by
  requiring `WellFormed`.
- `WellFormed` also requires `KeysAreNames`. `get_team` takes the name from
  the found record's `name` field (cogs/tourney.py:39) and indexes `teams`
  with it (cogs/tourney.py:48). The model's lookups are defined only where
  that index hits the same record.
- The other bot file (main.py) is not part of this model. It holds voting,
  role and strike-request workflows and ad-hoc tournament commands, all of
  them I/O glue.
- `register` refuses only when no words are given. A name made of empty
  words is accepted, as the cog does; there is no separate blank-name check.
- The model has none of these: sign-up positions, creation ids, player or
  team limits, an admin "remove team" command, or save-and-reload round trips.
  None of them exists in the cog.

=== FILE: builtins.dfy ===
/**
 The few Python list, dict and string operations the team registry is built
 from, restated over Dafny sequences and maps.
 */
module Builtins {

  /** No element occurs twice. */
  ghost predicate NoDup<T>(s: seq<T>) {
    forall i, j :: 0 <= i < j < |s| ==> s[i] != s[j]
  }

  /** The elements of a sequence, as a set. */
  function Elems<T>(s: seq<T>): set<T> {
    set x | x in s
  }

  /**
   `" ".join(words)`: the words in order, one space between each two. When
   no word holds a space, the result holds exactly one space fewer than
   there are words.
   */
  function Join(words: seq<string>): (r: string)
    ensures |words| == 1 ==> r == words[0]
    ensures |words| > 0 ==> words[0] <= r
    ensures |words| > 0 && (forall i :: 0 <= i < |words| ==> ' ' !in words[i]) ==>
              multiset(r)[' '] == |words| - 1
  {
    if |words| == 0 then ""
    else if |words| == 1 then words[0]
    else words[0] + " " + Join(words[1..])
  }

  /** The position of the first space in `s`, or `|s|` when there is none. */
  function FirstSpace(s: string): (i: nat)
    ensures i <= |s|
    ensures i < |s| ==> s[i] == ' '
    ensures forall j :: 0 <= j < i ==> s[j] != ' '
  {
    if |s| == 0 || s[0] == ' ' then 0 else 1 + FirstSpace(s[1..])
  }

  /** `s.split(" ")`: the pieces between single spaces, empty pieces included. */
  function Split(s: string): (r: seq<string>)
    ensures |r| > 0
    ensures forall i :: 0 <= i < |r| ==> ' ' !in r[i]
    decreases |s|
  {
    var i := FirstSpace(s);
    if i == |s| then [s]
    else [s[..i]] + Split(s[i + 1..])
  }

  /** In a space-free word followed by a space, the first space is right after the word. */
  lemma FirstSpaceAfterWord(w: string, t: string)
    requires ' ' !in w
    ensures FirstSpace(w + " " + t) == |w|
  {
    var s := w + " " + t;
    assert s[|w|] == ' ';
    assert forall j :: 0 <= j < |w| ==> s[j] == w[j];
  }

  /**
   Splitting a joined list at its spaces gives the words back when no word
   holds a space, so such argument lists name distinct teams exactly when
   they differ.
   */
  lemma {:induction false} SplitJoin(words: seq<string>)
    requires |words| > 0
    requires forall i :: 0 <= i < |words| ==> ' ' !in words[i]
    ensures Split(Join(words)) == words
  {
    var w := words[0];
    if |words| == 1 {
      assert FirstSpace(w) == |w|;
    } else {
      var t := Join(words[1..]);
      var s := w + " " + t;
      FirstSpaceAfterWord(w, t);
      assert s[..|w|] == w && s[|w| + 1..] == t;
      assert Split(s) == [w] + Split(t);
      SplitJoin(words[1..]);
      assert words == [w] + words[1..];
    }
  }

  /**
   `list.remove(x)`: deletes the first occurrence of `x`. Every caller has
   already checked `x in s` (Python raises ValueError otherwise).
   */
  function RemoveFirst<T(==)>(s: seq<T>, x: T): (r: seq<T>)
    requires x in s
    ensures |r| == |s| - 1
    ensures multiset(r) == multiset(s) - multiset{x}
    ensures forall y :: y in r ==> y in s
  {
    assert s == [s[0]] + s[1..];
    if s[0] == x then s[1..] else [s[0]] + RemoveFirst(s[1..], x)
  }

  /** The position `list.remove(x)` deletes: the first one holding `x`. */
  function FirstIndex<T(==)>(s: seq<T>, x: T): (i: nat)
    requires x in s
    ensures i < |s| && s[i] == x
    ensures forall k :: 0 <= k < i ==> s[k] != x
  {
    if s[0] == x then 0
    else
      assert s == [s[0]] + s[1..];
      1 + FirstIndex(s[1..], x)
  }

  /**
   `list.remove(x)` deletes the first occurrence of `x` and keeps every other
   element in its order: the result is the list with its first `x` cut out.
   */
  lemma {:induction false} RemoveFirstAt<T>(s: seq<T>, x: T)
    requires x in s
    ensures RemoveFirst(s, x) == s[..FirstIndex(s, x)] + s[FirstIndex(s, x) + 1..]
  {
    if s[0] != x {
      var t := s[1..];
      assert s == [s[0]] + t;
      RemoveFirstAt(t, x);
      CutAfterHead(s[0], t, FirstIndex(t, x));
    }
  }

  /** Cutting position `j` out of a tail is cutting position `j + 1` out of the whole list. */
  lemma CutAfterHead<T>(h: T, t: seq<T>, j: nat)
    requires j < |t|
    ensures [h] + (t[..j] + t[j + 1..]) == ([h] + t)[..j + 1] + ([h] + t)[j + 2..]
  {
  }

  /**
   `for k in ids: m.pop(k)`. The flag is false when some pop found its key
   missing, where Python raises KeyError; the map is then as far as the loop
   got before that pop.
   */
  function PopAll<V>(m: map<int, V>, ids: seq<int>): (r: (map<int, V>, bool))
    ensures r.1 <==> NoDup(ids) && forall k :: k in ids ==> k in m
    ensures r.1 ==> r.0 == m - Elems(ids)
    ensures r.0.Keys <= m.Keys
    ensures forall k :: k in r.0 ==> r.0[k] == m[k]
    decreases |ids|
  {
    if |ids| == 0 then (m, true)
    else if ids[0] !in m then
      var k0 := ids[0];
      assert k0 in ids && k0 !in m;
      (m, false)
    else
      var h, tail := ids[0], ids[1..];
      NoDupCons(ids);
      assert ids == [h] + tail;
      assert Elems(ids) == {h} + Elems(tail);
      assert (forall k :: k in tail ==> k in m - {h}) <==> h !in tail && forall k :: k in tail ==> k in m;
      PopAll(m - {h}, tail)
  }

  /**
   However far the pop loop gets, what it has removed is the keys of a
   prefix of `ids`, the values it left untouched.
   */
  lemma {:induction false} PopAllRemovesPrefix<V>(m: map<int, V>, ids: seq<int>)
    ensures exists i :: 0 <= i <= |ids| && PopAll(m, ids).0 == m - Elems(ids[..i])
    decreases |ids|
  {
    if |ids| == 0 || ids[0] !in m {
      assert Elems(ids[..0]) == {};
      assert PopAll(m, ids).0 == m - Elems(ids[..0]);
    } else {
      var h, tail := ids[0], ids[1..];
      PopAllRemovesPrefix(m - {h}, tail);
      var j :| 0 <= j <= |tail| && PopAll(m - {h}, tail).0 == (m - {h}) - Elems(tail[..j]);
      assert ids[..j + 1] == [h] + tail[..j];
      assert Elems(ids[..j + 1]) == {h} + Elems(tail[..j]);
      assert PopAll(m, ids).0 == m - Elems(ids[..j + 1]);
    }
  }

  /** A sequence has no duplicates exactly when its head is not repeated in its tail, which has none. */
  lemma NoDupCons<T>(s: seq<T>)
    requires |s| > 0
    ensures NoDup(s) <==> s[0] !in s[1..] && NoDup(s[1..])
  {
  }

  /** Appending keeps a sequence duplicate-free exactly when the new element is fresh. */
  lemma NoDupSnoc<T>(s: seq<T>, x: T)
    ensures NoDup(s + [x]) <==> NoDup(s) && x !in s
  {
    var t := s + [x];
    if NoDup(t) {
      assert forall i, j :: 0 <= i < j < |s| ==> t[i] == s[i] && t[j] == s[j];
      forall i | 0 <= i < |s|
        ensures s[i] != x
      {
        assert t[i] == s[i] && t[|s|] == x;
      }
    }
  }

  /**
   On a duplicate-free sequence `list.remove(x)` deletes `x` entirely, keeps
   every other element and keeps the sequence duplicate-free.
   */
  lemma {:induction false} RemoveFirstNoDup<T>(s: seq<T>, x: T)
    requires NoDup(s) && x in s
    ensures NoDup(RemoveFirst(s, x))
    ensures forall y :: y in RemoveFirst(s, x) <==> y in s && y != x
  {
    NoDupCons(s);
    var r := RemoveFirst(s, x);
    if s[0] == x {
      assert r == s[1..];
      assert forall y :: y in s <==> y == s[0] || y in s[1..] by {
        assert s == [s[0]] + s[1..];
      }
    } else {
      var tail := RemoveFirst(s[1..], x);
      RemoveFirstNoDup(s[1..], x);
      assert r == [s[0]] + tail;
      assert s[0] !in tail;
      NoDupCons(r);
      assert r[1..] == tail;
      assert forall y :: y in s <==> y == s[0] || y in s[1..] by {
        assert s == [s[0]] + s[1..];
      }
    }
  }

  /** Removing an element just appended to a sequence that lacked it gives the sequence back. */
  lemma {:induction false} RemoveFirstAppended<T>(s: seq<T>, x: T)
    requires x !in s
    ensures RemoveFirst(s + [x], x) == s
  {
    if s != [] {
      assert (s + [x])[1..] == s[1..] + [x];
      RemoveFirstAppended(s[1..], x);
    }
  }
}

=== FILE: commands.dfy ===
/**
 The eight team commands of the tournament cog as pure transitions of the
 registry state. Each command runs its guards in the cog's order; the first
 that fails either replies with a refusal (nothing changes) or, where the cog
 indexes a dict without checking, raises an exception that escapes with the
 state as far as the command had changed it. Saving the documents and
 replying in the channel are not part of the model.
 */
module Commands {
  import opened Builtins
  import opened Registry

  /** The reply a guard sends instead of running the command. */
  datatype Refusal =
    | AlreadyOnTeam    // the actor is already indexed
    | NoName           // register was given no words
    | DuplicateName    // a team with that name exists
    | NotOnTeam        // the actor is not indexed
    | NotLeader        // the actor is not the leader of their team
    | AlreadyInvited   // the target is already in the invites
    | AlreadyMember    // the target is already a member
    | NoInvite         // the id is not in the invites
    | NotInTeam        // the actor is not a member of the named team
    | IsLeader         // a leader tried to leave (or to be kicked)
    | NotMember        // the kick target is not a member
    | WrongTeam        // disband named a team other than the actor's

  /** An exception the cog does not catch. */
  datatype Fault =
    | NoSuchTeam       // `teams[name]` on a name that is not a key
    | DanglingIndex    // `get_team` on an indexed id that no team lists
    | MissingPlayerKey // `players.pop(key)` on a key that is not in the index

  datatype Outcome =
    | Done(state: State)
    | Refused(reason: Refusal)
    | Raised(state: State, fault: Fault)

  /** `register <words>`: create a team named by the joined words, led by the actor. */
  function Register(s: State, actor: PlayerId, args: seq<string>): (r: Outcome)
    ensures !r.Raised?
    ensures IsOnTeam(s, actor) ==> r == Refused(AlreadyOnTeam)
    ensures !IsOnTeam(s, actor) && |args| == 0 ==> r == Refused(NoName)
    ensures r.Done? <==> !IsOnTeam(s, actor) && |args| > 0 && !TeamExists(s, Join(args))
    ensures r.Refused? && r.reason == DuplicateName <==>
              !IsOnTeam(s, actor) && |args| > 0 && TeamExists(s, Join(args))
    ensures r.Done? ==>
              var name := Join(args);
              && r.state.teams.Keys == s.teams.Keys + {name}
              && r.state.teams[name] == CreateNewTeam(name, actor)
              && r.state.teams - {name} == s.teams
              && r.state.players.Keys == s.players.Keys + {actor}
              && r.state.players[actor] == name
              && r.state.players - {actor} == s.players
  {
    if IsOnTeam(s, actor) then Refused(AlreadyOnTeam)
    else if |args| == 0 then Refused(NoName)
    else
      var name := Join(args);
      if TeamExists(s, name) then Refused(DuplicateName)
      else Done(State(s.teams[name := CreateNewTeam(name, actor)], s.players[actor := name]))
  }

  /** `invite <user>`: the actor's team leader adds the target to the team's invites. */
  function Invite(s: State, actor: PlayerId, target: PlayerId): (r: Outcome)
    requires WellFormed(s)
    ensures !IsOnTeam(s, actor) ==> r == Refused(NotOnTeam)
    ensures r.Raised? <==> GetTeam(s, actor).Dangling?
    ensures r.Raised? ==> r == Raised(s, DanglingIndex)
    ensures GetTeam(s, actor).Found? && GetTeam(s, actor).team.leader != actor ==> r == Refused(NotLeader)
    ensures r.Done? <==>
              && GetTeam(s, actor).Found?
              && GetTeam(s, actor).team.leader == actor
              && target !in GetTeam(s, actor).team.invites
              && target !in GetTeam(s, actor).team.members
    ensures r.Done? ==>
              var t := GetTeam(s, actor).team;
              && r.state.players == s.players
              && r.state.teams.Keys == s.teams.Keys
              && r.state.teams - {t.name} == s.teams - {t.name}
              && r.state.teams[t.name] == t.(invites := t.invites + [target])
  {
    if !IsOnTeam(s, actor) then Refused(NotOnTeam)
    else
      var lookup := GetTeam(s, actor);
      if !lookup.Found? then Raised(s, DanglingIndex)
      else
        var team := lookup.team;
        if team.leader != actor then Refused(NotLeader)
        else if target in team.invites then Refused(AlreadyInvited)
        else if target in team.members then Refused(AlreadyMember)
        else Done(s.(teams := s.teams[team.name := team.(invites := team.invites + [target])]))
  }

  /** `accept <team name>`: an unindexed, invited actor joins the named team. */
  function Accept(s: State, actor: PlayerId, args: seq<string>): (r: Outcome)
    ensures IsOnTeam(s, actor) ==> r == Refused(AlreadyOnTeam)
    ensures r.Raised? <==> !IsOnTeam(s, actor) && !TeamExists(s, Join(args))
    ensures r.Raised? ==> r == Raised(s, NoSuchTeam)
    ensures r.Done? <==>
              !IsOnTeam(s, actor) && TeamExists(s, Join(args)) && actor in s.teams[Join(args)].invites
    ensures r.Done? ==>
              var name := Join(args);
              var t := s.teams[name];
              && r.state.teams.Keys == s.teams.Keys
              && r.state.teams - {name} == s.teams - {name}
              && r.state.teams[name] == t.(invites := RemoveFirst(t.invites, actor), members := t.members + [actor])
              && r.state.players.Keys == s.players.Keys + {actor}
              && r.state.players[actor] == name
              && r.state.players - {actor} == s.players
  {
    if IsOnTeam(s, actor) then Refused(AlreadyOnTeam)
    else
      var name := Join(args);
      if !TeamExists(s, name) then Raised(s, NoSuchTeam)
      else
        var team := s.teams[name];
        if actor !in team.invites then Refused(NoInvite)
        else
          var joined := team.(invites := RemoveFirst(team.invites, actor), members := team.members + [actor]);
          Done(State(s.teams[name := joined], s.players[actor := name]))
  }

  /** `uninvite <user>`: the actor's team leader withdraws the target's invite. */
  function Uninvite(s: State, actor: PlayerId, target: PlayerId): (r: Outcome)
    requires WellFormed(s)
    ensures !IsOnTeam(s, actor) ==> r == Refused(NotOnTeam)
    ensures r.Raised? <==> GetTeam(s, actor).Dangling?
    ensures r.Raised? ==> r == Raised(s, DanglingIndex)
    ensures GetTeam(s, actor).Found? && GetTeam(s, actor).team.leader != actor ==> r == Refused(NotLeader)
    ensures r.Done? <==>
              && GetTeam(s, actor).Found?
              && GetTeam(s, actor).team.leader == actor
              && target in GetTeam(s, actor).team.invites
    ensures r.Done? ==>
              var t := GetTeam(s, actor).team;
              && r.state.players == s.players
              && r.state.teams.Keys == s.teams.Keys
              && r.state.teams - {t.name} == s.teams - {t.name}
              && r.state.teams[t.name] == t.(invites := RemoveFirst(t.invites, target))
  {
    if !IsOnTeam(s, actor) then Refused(NotOnTeam)
    else
      var lookup := GetTeam(s, actor);
      if !lookup.Found? then Raised(s, DanglingIndex)
      else
        var team := lookup.team;
        if team.leader != actor then Refused(NotLeader)
        else if target !in team.invites then Refused(NoInvite)
        else Done(s.(teams := s.teams[team.name := team.(invites := RemoveFirst(team.invites, target))]))
  }

  /**
   `reject <team name>`: the actor declines the named team's invite. The cog
   mutates the record it looked up under `name` and then stores it under the
   record's own `name` field, so both keys end up holding the updated record.
   */
  function Reject(s: State, actor: PlayerId, args: seq<string>): (r: Outcome)
    ensures r.Raised? <==> !TeamExists(s, Join(args))
    ensures r.Raised? ==> r == Raised(s, NoSuchTeam)
    ensures r.Done? <==> TeamExists(s, Join(args)) && actor in s.teams[Join(args)].invites
    ensures r.Refused? ==> r.reason == NoInvite
    ensures r.Done? ==>
              var name := Join(args);
              var t := s.teams[name];
              var t' := t.(invites := RemoveFirst(t.invites, actor));
              && r.state.players == s.players
              && r.state.teams == s.teams[name := t'][t.name := t']
  {
    var name := Join(args);
    if !TeamExists(s, name) then Raised(s, NoSuchTeam)
    else
      var team := s.teams[name];
      if actor !in team.invites then Refused(NoInvite)
      else
        var declined := team.(invites := RemoveFirst(team.invites, actor));
        Done(s.(teams := s.teams[name := declined][declined.name := declined]))
  }

  /** `leave <team name>`: a member other than the leader leaves the named team. */
  function Leave(s: State, actor: PlayerId, args: seq<string>): (r: Outcome)
    ensures !IsOnTeam(s, actor) ==> r == Refused(NotOnTeam)
    ensures r.Raised? <==> IsOnTeam(s, actor) && !TeamExists(s, Join(args))
    ensures r.Raised? ==> r == Raised(s, NoSuchTeam)
    ensures IsOnTeam(s, actor) && TeamExists(s, Join(args)) && actor !in s.teams[Join(args)].members ==>
              r == Refused(NotInTeam)
    ensures r.Done? <==>
              && IsOnTeam(s, actor)
              && Holds(s, Join(args), actor)
              && s.teams[Join(args)].leader != actor
    ensures r.Done? ==>
              var name := Join(args);
              var t := s.teams[name];
              && r.state.teams.Keys == s.teams.Keys
              && r.state.teams - {name} == s.teams - {name}
              && r.state.teams[name] == t.(members := RemoveFirst(t.members, actor))
              && r.state.teams[name].leader == t.leader
              && r.state.players == s.players - {actor}
  {
    if !IsOnTeam(s, actor) then Refused(NotOnTeam)
    else
      var name := Join(args);
      if !TeamExists(s, name) then Raised(s, NoSuchTeam)
      else
        var team := s.teams[name];
        if actor !in team.members then Refused(NotInTeam)
        else if team.leader == actor then Refused(IsLeader)
        else
          var left := team.(members := RemoveFirst(team.members, actor));
          Done(State(s.teams[name := left], s.players - {actor}))
  }

  /**
   `disband <team name>`: the leader deletes their own team and pops every
   member from the index, in member order.
   */
  function Disband(s: State, actor: PlayerId, args: seq<string>): (r: Outcome)
    requires WellFormed(s)
    ensures !IsOnTeam(s, actor) ==> r == Refused(NotOnTeam)
    ensures GetTeam(s, actor).Dangling? ==> r == Raised(s, DanglingIndex)
    ensures GetTeam(s, actor).Found? && GetTeam(s, actor).team.name != Join(args) ==> r == Refused(WrongTeam)
    ensures GetTeam(s, actor).Found? && GetTeam(s, actor).team.name == Join(args) && GetTeam(s, actor).team.leader != actor ==>
              r == Refused(NotLeader)
    ensures r.Raised? <==>
              || GetTeam(s, actor).Dangling?
              || (&& GetTeam(s, actor).Found?
                  && GetTeam(s, actor).team.name == Join(args)
                  && GetTeam(s, actor).team.leader == actor
                  && !PopAll(s.players, GetTeam(s, actor).team.members).1)
    ensures r.Raised? && !GetTeam(s, actor).Dangling? ==> r.fault == MissingPlayerKey
    ensures r.Done? <==>
              && GetTeam(s, actor).Found?
              && GetTeam(s, actor).team.name == Join(args)
              && GetTeam(s, actor).team.leader == actor
              && NoDup(GetTeam(s, actor).team.members)
              && (forall id :: id in GetTeam(s, actor).team.members ==> id in s.players)
    ensures r.Done? ==>
              var t := GetTeam(s, actor).team;
              && r.state.teams == s.teams - {t.name}
              && r.state.players == s.players - Elems(t.members)
    ensures r.Raised? && r.fault == MissingPlayerKey ==>
              var t := GetTeam(s, actor).team;
              && r.state.teams == s.teams
              && exists i :: 0 <= i <= |t.members| && r.state.players == s.players - Elems(t.members[..i])
  {
    if !IsOnTeam(s, actor) then Refused(NotOnTeam)
    else
      var argName := Join(args);
      var lookup := GetTeam(s, actor);
      if !lookup.Found? then Raised(s, DanglingIndex)
      else
        var team := lookup.team;
        if argName != team.name then Refused(WrongTeam)
        else if team.leader != actor then Refused(NotLeader)
        else
          var popped := PopAll(s.players, team.members);
          if popped.1 then Done(State(s.teams - {team.name}, popped.0))
          else
            PopAllRemovesPrefix(s.players, team.members);
            Raised(s.(players := popped.0), MissingPlayerKey)
  }

  /**
   `kick <user>` as the cog is evidently meant to behave: the leader removes
   a member, the team is saved, and the member's `str(id)` entry is popped
   from the index. It also refuses to kick the leader, which the cog does
   not check; see `KickAsWritten` for the cog's own behaviour.
   */
  function Kick(s: State, actor: PlayerId, target: PlayerId): (r: Outcome)
    requires WellFormed(s)
    ensures !IsOnTeam(s, actor) ==> r == Refused(NotOnTeam)
    ensures GetTeam(s, actor).Dangling? ==> r == Raised(s, DanglingIndex)
    ensures GetTeam(s, actor).Found? && GetTeam(s, actor).team.leader != actor ==> r == Refused(NotLeader)
    ensures GetTeam(s, actor).Found? && GetTeam(s, actor).team.leader == actor && target !in GetTeam(s, actor).team.members ==>
              r == Refused(NotMember)
    ensures target == actor && GetTeam(s, actor).Found? && GetTeam(s, actor).team.leader == actor ==>
              r == Refused(IsLeader)
    ensures r.Done? <==>
              && GetTeam(s, actor).Found?
              && GetTeam(s, actor).team.leader == actor
              && target in GetTeam(s, actor).team.members
              && target != actor
              && IsOnTeam(s, target)
    ensures r.Done? ==>
              var t := GetTeam(s, actor).team;
              && r.state.teams.Keys == s.teams.Keys
              && r.state.teams - {t.name} == s.teams - {t.name}
              && r.state.teams[t.name] == t.(members := RemoveFirst(t.members, target))
              && r.state.players == s.players - {target}
  {
    if !IsOnTeam(s, actor) then Refused(NotOnTeam)
    else
      var lookup := GetTeam(s, actor);
      if !lookup.Found? then Raised(s, DanglingIndex)
      else
        var team := lookup.team;
        if team.leader != actor then Refused(NotLeader)
        else if target !in team.members then Refused(NotMember)
        else if target == team.leader then Refused(IsLeader)
        else
          var saved := s.(teams := s.teams[team.name := team.(members := RemoveFirst(team.members, target))]);
          if IsOnTeam(s, target) then Done(saved.(players := s.players - {target}))
          else Raised(saved, MissingPlayerKey)
  }

  /**
   `kick <user>` exactly as the cog is written: no check that the target is
   not the leader, and the index entry is popped with the integer id while
   every key of the index is a `str`, so the pop always raises KeyError,
   after the shortened team has already been saved.
   */
  function KickAsWritten(s: State, actor: PlayerId, target: PlayerId): (r: Outcome)
    requires WellFormed(s)
    ensures !r.Done?
    ensures !IsOnTeam(s, actor) ==> r == Refused(NotOnTeam)
    ensures GetTeam(s, actor).Dangling? ==> r == Raised(s, DanglingIndex)
    ensures GetTeam(s, actor).Found? && GetTeam(s, actor).team.leader != actor ==> r == Refused(NotLeader)
    ensures GetTeam(s, actor).Found? && GetTeam(s, actor).team.leader == actor && target !in GetTeam(s, actor).team.members ==>
              r == Refused(NotMember)
    ensures r.Raised? && r.fault == MissingPlayerKey <==>
              && GetTeam(s, actor).Found?
              && GetTeam(s, actor).team.leader == actor
              && target in GetTeam(s, actor).team.members
    ensures r.Raised? && r.fault == MissingPlayerKey ==>
              var t := GetTeam(s, actor).team;
              && r.state.players == s.players
              && r.state.teams.Keys == s.teams.Keys
              && r.state.teams - {t.name} == s.teams - {t.name}
              && r.state.teams[t.name] == t.(members := RemoveFirst(t.members, target))
  {
    if !IsOnTeam(s, actor) then Refused(NotOnTeam)
    else
      var lookup := GetTeam(s, actor);
      if !lookup.Found? then Raised(s, DanglingIndex)
      else
        var team := lookup.team;
        if team.leader != actor then Refused(NotLeader)
        else if target !in team.members then Refused(NotMember)
        else
          var saved := s.(teams := s.teams[team.name := team.(members := RemoveFirst(team.members, target))]);
          Raised(saved, MissingPlayerKey)
  }
}

=== FILE: invariants.dfy ===
/**
 Every successful command keeps the registry invariant: the index lists
 exactly the members of every team, each under its own team; the leader is
 a member; and members and invites are duplicate-free and disjoint.
 */
module Invariants {
  import opened Builtins
  import opened Registry
  import opened Commands

  /**
   A change that keeps every team's name and member list and leaves the
   index alone keeps the invariant, provided each team record stays well
   formed.
   */
  lemma SameRosterKeepsValid(s: State, s': State)
    requires Valid(s)
    requires s'.players == s.players
    requires s'.teams.Keys == s.teams.Keys
    requires forall n :: n in s.teams ==>
               s'.teams[n].name == s.teams[n].name && s'.teams[n].members == s.teams[n].members
    requires AllTeamsOk(s')
    ensures Valid(s')
  {
    assert forall n, id :: Holds(s', n, id) <==> Holds(s, n, id);
  }

  /** A registration adds a well-formed team and indexes its leader to it. */
  lemma RegisterPreservesValid(s: State, actor: PlayerId, args: seq<string>)
    requires Valid(s)
    ensures Register(s, actor, args).Done? ==> Valid(Register(s, actor, args).state)
  {
    var r := Register(s, actor, args);
    if r.Done? {
      var name, s' := Join(args), r.state;
      LookupsFollowIndex(s, actor);
      assert forall n, id :: Holds(s', n, id) <==> Holds(s, n, id) || (n == name && id == actor);
    }
  }

  /** An invitation keeps the invites duplicate-free and disjoint from the members. */
  lemma InvitePreservesValid(s: State, actor: PlayerId, target: PlayerId)
    requires Valid(s)
    ensures !Invite(s, actor, target).Raised?
    ensures Invite(s, actor, target).Done? ==> Valid(Invite(s, actor, target).state)
  {
    LookupsFollowIndex(s, actor);
    var r := Invite(s, actor, target);
    if r.Done? {
      var t := GetTeam(s, actor).team;
      NoDupSnoc(t.invites, target);
      SameRosterKeepsValid(s, r.state);
    }
  }

  /**
   Accepting moves the actor from the invites to the members, indexes them to
   that team, and leaves them on that team only.
   */
  lemma AcceptPreservesValid(s: State, actor: PlayerId, args: seq<string>)
    requires Valid(s)
    ensures Accept(s, actor, args).Done? ==>
              && Valid(Accept(s, actor, args).state)
              && (forall n :: Holds(Accept(s, actor, args).state, n, actor) <==> n == Join(args))
              && GetTeamName(Accept(s, actor, args).state, actor) == Some(Join(args))
  {
    var r := Accept(s, actor, args);
    if r.Done? {
      var name, s' := Join(args), r.state;
      var t := s.teams[name];
      LookupsFollowIndex(s, actor);
      RemoveFirstNoDup(t.invites, actor);
      NoDupSnoc(t.members, actor);
      assert forall n, id :: Holds(s', n, id) <==> Holds(s, n, id) || (n == name && id == actor);
      assert TeamOk(s'.teams[name]);
      assert Valid(s');
      LookupsFollowIndex(s', actor);
    }
  }

  /** Withdrawing an invitation touches no member list and no index entry. */
  lemma UninvitePreservesValid(s: State, actor: PlayerId, target: PlayerId)
    requires Valid(s)
    ensures !Uninvite(s, actor, target).Raised?
    ensures Uninvite(s, actor, target).Done? ==> Valid(Uninvite(s, actor, target).state)
  {
    LookupsFollowIndex(s, actor);
    var r := Uninvite(s, actor, target);
    if r.Done? {
      var t := GetTeam(s, actor).team;
      RemoveFirstNoDup(t.invites, target);
      SameRosterKeepsValid(s, r.state);
    }
  }

  /** Declining an invitation touches no member list and no index entry. */
  lemma RejectPreservesValid(s: State, actor: PlayerId, args: seq<string>)
    requires Valid(s)
    ensures Reject(s, actor, args).Done? ==> Valid(Reject(s, actor, args).state)
  {
    var r := Reject(s, actor, args);
    if r.Done? {
      var t := s.teams[Join(args)];
      RemoveFirstNoDup(t.invites, actor);
      SameRosterKeepsValid(s, r.state);
    }
  }

  /** Leaving drops the actor from the team and the index; the team keeps its leader. */
  lemma LeavePreservesValid(s: State, actor: PlayerId, args: seq<string>)
    requires Valid(s)
    ensures Leave(s, actor, args).Done? ==>
              && Valid(Leave(s, actor, args).state)
              && forall n :: !Holds(Leave(s, actor, args).state, n, actor)
  {
    var r := Leave(s, actor, args);
    if r.Done? {
      var name, s' := Join(args), r.state;
      var t := s.teams[name];
      RemoveFirstNoDup(t.members, actor);
      assert forall n, id :: Holds(s', n, id) <==> Holds(s, n, id) && id != actor;
      assert TeamOk(s'.teams[name]);
    }
  }

  /**
   Under the invariant a leader who names their own team always disbands it:
   the team goes, all its members leave the index, and nothing else changes.
   */
  lemma DisbandPreservesValid(s: State, actor: PlayerId, args: seq<string>)
    requires Valid(s)
    ensures !Disband(s, actor, args).Raised?
    ensures Disband(s, actor, args).Done? <==>
              IsOnTeam(s, actor) && s.players[actor] == Join(args) && s.teams[Join(args)].leader == actor
    ensures Disband(s, actor, args).Done? ==> Valid(Disband(s, actor, args).state)
  {
    LookupsFollowIndex(s, actor);
    var r := Disband(s, actor, args);
    if IsOnTeam(s, actor) {
      var t := GetTeam(s, actor).team;
      assert forall id :: id in t.members ==> Holds(s, t.name, id);
    }
    if r.Done? {
      var t, s' := GetTeam(s, actor).team, r.state;
      assert forall n, id :: Holds(s', n, id) <==> Holds(s, n, id) && n != t.name;
    }
  }

  /** Kicking drops the target from the team and the index; the leader stays a member. */
  lemma KickPreservesValid(s: State, actor: PlayerId, target: PlayerId)
    requires Valid(s)
    ensures !Kick(s, actor, target).Raised?
    ensures Kick(s, actor, target).Done? ==>
              && Valid(Kick(s, actor, target).state)
              && forall n :: !Holds(Kick(s, actor, target).state, n, target)
  {
    LookupsFollowIndex(s, actor);
    var r := Kick(s, actor, target);
    if IsOnTeam(s, actor) {
      var t := GetTeam(s, actor).team;
      assert target in t.members ==> Holds(s, t.name, target);
    }
    if r.Done? {
      var t, s' := GetTeam(s, actor).team, r.state;
      RemoveFirstNoDup(t.members, target);
      assert forall n, id :: Holds(s', n, id) <==> Holds(s, n, id) && id != target;
      assert TeamOk(s'.teams[t.name]);
    }
  }

  /**
   The cog's own kick keeps the two facts the lookups rely on, so the model
   stays defined after it, even though it breaks the index.
   */
  lemma KickAsWrittenKeepsWellFormed(s: State, actor: PlayerId, target: PlayerId)
    requires WellFormed(s)
    ensures KickAsWritten(s, actor, target).Raised? ==> WellFormed(KickAsWritten(s, actor, target).state)
  {
    var r := KickAsWritten(s, actor, target);
    if r.Raised? && r.fault == MissingPlayerKey {
      var t, s' := GetTeam(s, actor).team, r.state;
      assert forall n, id :: Holds(s', n, id) ==> Holds(s, n, id);
    }
  }

  // ---------------------------------------------------------------------
  // The cog as written
  // ---------------------------------------------------------------------

  /** The registry an outcome leaves behind satisfies `Consistent`. */
  ghost predicate LeavesConsistent(r: Outcome) {
    !r.Refused? ==> Consistent(r.state)
  }

  /** The invariant the intended commands keep implies the one the cog's own commands keep. */
  lemma ValidIsConsistent(s: State)
    requires Valid(s)
    ensures Consistent(s)
  {
  }

  /**
   A change that keeps every team's name and member list and leaves the
   index alone keeps `Consistent`.
   */
  lemma SameRosterKeepsConsistent(s: State, s': State)
    requires Consistent(s)
    requires s'.players == s.players
    requires s'.teams.Keys == s.teams.Keys
    requires forall n :: n in s.teams ==>
               s'.teams[n].name == s.teams[n].name && s'.teams[n].members == s.teams[n].members
    ensures Consistent(s')
  {
    assert forall n, id :: Holds(s', n, id) <==> Holds(s, n, id);
  }

  /** Registration keeps `Consistent`, and never raises. */
  lemma RegisterKeepsConsistent(s: State, actor: PlayerId, args: seq<string>)
    requires Consistent(s)
    ensures LeavesConsistent(Register(s, actor, args))
  {
    var r := Register(s, actor, args);
    if r.Done? {
      var name, s' := Join(args), r.state;
      assert forall n, id :: Holds(s', n, id) <==> Holds(s, n, id) || (n == name && id == actor);
    }
  }

  /** Inviting keeps `Consistent`; it raises only on a dangling actor, changing nothing. */
  lemma InviteKeepsConsistent(s: State, actor: PlayerId, target: PlayerId)
    requires Consistent(s)
    ensures LeavesConsistent(Invite(s, actor, target))
  {
    var r := Invite(s, actor, target);
    if r.Done? {
      SameRosterKeepsConsistent(s, r.state);
    }
  }

  /**
   Appending an id that no team lists to one team's members, and indexing it
   to that team, keeps `Consistent`.
   */
  lemma AddMemberKeepsConsistent(s: State, name: TeamName, joined: Team, actor: PlayerId)
    requires Consistent(s)
    requires name in s.teams
    requires forall n :: !Holds(s, n, actor)
    requires joined.name == name && joined.members == s.teams[name].members + [actor]
    ensures Consistent(State(s.teams[name := joined], s.players[actor := name]))
  {
    var t, s' := s.teams[name], State(s.teams[name := joined], s.players[actor := name]);
    assert !Holds(s, name, actor);
    NoDupSnoc(t.members, actor);
    assert forall n, id :: Holds(s', n, id) <==> Holds(s, n, id) || (n == name && id == actor);
  }

  /** Accepting keeps `Consistent`; it raises only on an unknown team, changing nothing. */
  lemma AcceptKeepsConsistent(s: State, actor: PlayerId, args: seq<string>)
    requires Consistent(s)
    ensures LeavesConsistent(Accept(s, actor, args))
  {
    var r := Accept(s, actor, args);
    if r.Done? {
      var name := Join(args);
      assert forall n :: !Holds(s, n, actor);
      var t := s.teams[name];
      AddMemberKeepsConsistent(s, name, t.(invites := RemoveFirst(t.invites, actor), members := t.members + [actor]), actor);
    }
  }

  /** Withdrawing an invitation keeps `Consistent`. */
  lemma UninviteKeepsConsistent(s: State, actor: PlayerId, target: PlayerId)
    requires Consistent(s)
    ensures LeavesConsistent(Uninvite(s, actor, target))
  {
    var r := Uninvite(s, actor, target);
    if r.Done? {
      SameRosterKeepsConsistent(s, r.state);
    }
  }

  /** Declining keeps `Consistent`: the double store writes the same key twice. */
  lemma RejectKeepsConsistent(s: State, actor: PlayerId, args: seq<string>)
    requires Consistent(s)
    ensures LeavesConsistent(Reject(s, actor, args))
  {
    var r := Reject(s, actor, args);
    if r.Done? {
      SameRosterKeepsConsistent(s, r.state);
    }
  }

  /** Leaving keeps `Consistent`, and afterwards no team lists the actor. */
  lemma LeaveKeepsConsistent(s: State, actor: PlayerId, args: seq<string>)
    requires Consistent(s)
    ensures LeavesConsistent(Leave(s, actor, args))
    ensures Leave(s, actor, args).Done? ==> forall n :: !Holds(Leave(s, actor, args).state, n, actor)
  {
    var r := Leave(s, actor, args);
    if r.Done? {
      var name, s' := Join(args), r.state;
      var t := s.teams[name];
      RemoveFirstNoDup(t.members, actor);
      assert forall n, id :: Holds(s', n, id) <==> Holds(s, n, id) && id != actor;
    }
  }

  /** Deleting a team and every index entry of its members keeps `Consistent`. */
  lemma RemoveTeamKeepsConsistent(s: State, name: TeamName)
    requires Consistent(s)
    requires name in s.teams
    ensures Consistent(State(s.teams - {name}, s.players - Elems(s.teams[name].members)))
  {
    var s' := State(s.teams - {name}, s.players - Elems(s.teams[name].members));
    assert forall n, id :: Holds(s', n, id) <==> Holds(s, n, id) && n != name;
    forall n, id | Holds(s', n, id)
      ensures id in s'.players && s'.players[id] == n
    {
      assert !Holds(s, name, id);
    }
  }

  /**
   Disbanding keeps `Consistent`. Every member of the actor's team is indexed
   and listed once, so the pop loop always completes and disband never
   raises KeyError on the index.
   */
  lemma DisbandKeepsConsistent(s: State, actor: PlayerId, args: seq<string>)
    requires Consistent(s)
    ensures LeavesConsistent(Disband(s, actor, args))
    ensures Disband(s, actor, args).Raised? ==> Disband(s, actor, args) == Raised(s, DanglingIndex)
  {
    if GetTeam(s, actor).Found? {
      var t := GetTeam(s, actor).team;
      assert forall id :: id in t.members ==> Holds(s, t.name, id);
      RemoveTeamKeepsConsistent(s, t.name);
    }
  }

  /**
   The cog's kick keeps `Consistent`: the saved team only loses a member and
   the index is untouched.
   */
  lemma KickAsWrittenKeepsConsistent(s: State, actor: PlayerId, target: PlayerId)
    requires Consistent(s)
    ensures LeavesConsistent(KickAsWritten(s, actor, target))
  {
    var r := KickAsWritten(s, actor, target);
    if r.Raised? && r.fault == MissingPlayerKey {
      var t, s' := GetTeam(s, actor).team, r.state;
      RemoveFirstNoDup(t.members, target);
      assert forall n, id :: Holds(s', n, id) ==> Holds(s, n, id);
    }
  }
}

=== FILE: lifecycle.dfy ===
/**
 How the commands relate to one another: the ones that undo each other,
 the ones that cannot be repeated, and what the cog's own kick does to the
 registry compared with the intended one.
 */
module Lifecycle {
  import opened Builtins
  import opened Registry
  import opened Commands
  import opened Invariants

  /** Withdrawing an invitation that was just sent gives back the registry as it was. */
  lemma InviteThenUninviteRestores(s: State, actor: PlayerId, target: PlayerId)
    requires Valid(s)
    requires Invite(s, actor, target).Done?
    ensures Valid(Invite(s, actor, target).state)
    ensures Uninvite(Invite(s, actor, target).state, actor, target) == Done(s)
  {
    var s1 := Invite(s, actor, target).state;
    var t := GetTeam(s, actor).team;
    InvitePreservesValid(s, actor, target);
    LookupsFollowIndex(s, actor);
    LookupsFollowIndex(s1, actor);
    RemoveFirstAppended(t.invites, target);
    assert s1.teams[t.name := t] == s.teams;
  }

  /** Declining an invitation that was just sent gives back the registry as it was. */
  lemma InviteThenRejectRestores(s: State, actor: PlayerId, target: PlayerId)
    requires Valid(s)
    requires Invite(s, actor, target).Done?
    ensures Reject(Invite(s, actor, target).state, target, [GetTeam(s, actor).team.name]) == Done(s)
  {
    var s1 := Invite(s, actor, target).state;
    var t := GetTeam(s, actor).team;
    assert Join([t.name]) == t.name;
    RemoveFirstAppended(t.invites, target);
    assert s1.teams[t.name := t][t.name := t] == s.teams;
  }

  /**
   Joining a team and leaving it again restores the index and the member
   list; only the spent invitation is gone.
   */
  lemma AcceptThenLeave(s: State, actor: PlayerId, args: seq<string>)
    requires Valid(s)
    requires Accept(s, actor, args).Done?
    ensures Leave(Accept(s, actor, args).state, actor, args).Done?
    ensures
      var s2 := Leave(Accept(s, actor, args).state, actor, args).state;
      var t := s.teams[Join(args)];
      && s2.players == s.players
      && s2.teams == s.teams[Join(args) := t.(invites := RemoveFirst(t.invites, actor))]
  {
    var name := Join(args);
    var t := s.teams[name];
    var s1 := Accept(s, actor, args).state;
    LookupsFollowIndex(s, actor);
    assert actor != t.leader;
    assert Holds(s1, name, actor);
    RemoveFirstAppended(t.members, actor);
    assert s1.players - {actor} == s.players;
  }

  /** Registering a team and disbanding it straight away gives back the registry as it was. */
  lemma RegisterThenDisbandRestores(s: State, actor: PlayerId, args: seq<string>)
    requires Valid(s)
    requires Register(s, actor, args).Done?
    ensures Valid(Register(s, actor, args).state)
    ensures Disband(Register(s, actor, args).state, actor, args) == Done(s)
  {
    var name := Join(args);
    var s1 := Register(s, actor, args).state;
    RegisterPreservesValid(s, actor, args);
    LookupsFollowIndex(s1, actor);
    assert Elems(s1.teams[name].members) == {actor};
    assert s1.players - {actor} == s.players;
  }

  /**
   A name can be registered once: a second registration of it is refused,
   as a duplicate when someone unindexed tries it, and because they are on a
   team already when the new leader tries it again.
   */
  lemma RegisterNameOnce(s: State, actor: PlayerId, other: PlayerId, args: seq<string>)
    requires Register(s, actor, args).Done?
    ensures Register(Register(s, actor, args).state, actor, args) == Refused(AlreadyOnTeam)
    ensures other != actor && !IsOnTeam(s, other) ==>
              Register(Register(s, actor, args).state, other, args) == Refused(DuplicateName)
  {
  }

  /** A leader who tries to leave their own team is told to disband it instead. */
  lemma LeaderCannotLeave(s: State, actor: PlayerId)
    requires Valid(s)
    requires IsOnTeam(s, actor) && s.teams[s.players[actor]].leader == actor
    ensures Leave(s, actor, [s.players[actor]]) == Refused(IsLeader)
  {
  }

  /** Once a member has been kicked, kicking them again is refused: they are no longer a member. */
  lemma KickTwiceRefused(s: State, actor: PlayerId, target: PlayerId)
    requires Valid(s)
    requires Kick(s, actor, target).Done?
    ensures Valid(Kick(s, actor, target).state)
    ensures Kick(Kick(s, actor, target).state, actor, target) == Refused(NotMember)
  {
    var s1 := Kick(s, actor, target).state;
    var t := GetTeam(s, actor).team;
    KickPreservesValid(s, actor, target);
    LookupsFollowIndex(s, actor);
    LookupsFollowIndex(s1, actor);
    RemoveFirstNoDup(t.members, target);
  }

  /**
   The cog's kick of a member who is not the leader raises KeyError after
   saving the shortened team: the target is still indexed but no team lists
   them, so every later lookup of them fails and they can neither register
   nor accept an invitation again.
   */
  lemma KickAsWrittenStrandsTarget(s: State, actor: PlayerId, target: PlayerId, args: seq<string>)
    requires Valid(s)
    requires IsOnTeam(s, actor) && s.teams[s.players[actor]].leader == actor
    requires target in s.teams[s.players[actor]].members && target != actor
    ensures KickAsWritten(s, actor, target).Raised?
    ensures
      var s' := KickAsWritten(s, actor, target).state;
      && WellFormed(s')
      && IsOnTeam(s', target)
      && GetTeam(s', target).Dangling?
      && !IndexSound(s')
      && Register(s', target, args) == Refused(AlreadyOnTeam)
      && Accept(s', target, args) == Refused(AlreadyOnTeam)
  {
    var name := s.players[actor];
    var t := s.teams[name];
    LookupsFollowIndex(s, actor);
    KickAsWrittenKeepsWellFormed(s, actor, target);
    var s' := KickAsWritten(s, actor, target).state;
    RemoveFirstNoDup(t.members, target);
    assert Holds(s, name, target);
    assert GetTeam(s, actor).team == t;
    forall n | n != name && n in s.teams
      ensures !Holds(s', n, target)
    {
      assert (s'.teams - {name})[n] == (s.teams - {name})[n];
      assert Holds(s, name, target);
      assert !Holds(s, n, target);
    }
  }

  /**
   The cog lets a leader kick themselves: the team is left with a leader who
   is not among its members, and that leader's own later commands on the team
   all fail on the index.
   */
  lemma KickAsWrittenRemovesLeader(s: State, actor: PlayerId, target: PlayerId, args: seq<string>)
    requires Valid(s)
    requires IsOnTeam(s, actor) && s.teams[s.players[actor]].leader == actor
    ensures KickAsWritten(s, actor, actor).Raised?
    ensures
      var name := s.players[actor];
      var s' := KickAsWritten(s, actor, actor).state;
      && WellFormed(s')
      && s'.teams[name].leader == actor
      && actor !in s'.teams[name].members
      && !TeamOk(s'.teams[name])
      && Invite(s', actor, target) == Raised(s', DanglingIndex)
      && KickAsWritten(s', actor, target) == Raised(s', DanglingIndex)
      && Disband(s', actor, args) == Raised(s', DanglingIndex)
  {
    var name := s.players[actor];
    var t := s.teams[name];
    LookupsFollowIndex(s, actor);
    KickAsWrittenKeepsWellFormed(s, actor, actor);
    var s' := KickAsWritten(s, actor, actor).state;
    RemoveFirstNoDup(t.members, actor);
    assert GetTeam(s, actor).team == t;
    forall n | n != name && n in s.teams
      ensures !Holds(s', n, actor)
    {
      assert (s'.teams - {name})[n] == (s.teams - {name})[n];
      assert Holds(s, name, actor);
      assert !Holds(s, n, actor);
    }
  }

  /** The intended kick refuses to remove the leader. */
  lemma KickKeepsLeader(s: State, actor: PlayerId)
    requires Valid(s)
    requires IsOnTeam(s, actor) && s.teams[s.players[actor]].leader == actor
    ensures Kick(s, actor, actor) == Refused(IsLeader)
  {
  }

  /** Team "A" led by player 1, with player 2 as its second member and no invites. */
  const TwoMemberTeam: State :=
    State(map["A" := Team("A", 1, [1, 2], [], 0, 0, [])], map[1 := "A", 2 := "A"])

  /** Team "A" led by player 1 alone, as registration creates it. */
  const OneMemberTeam: State :=
    State(map["A" := Team("A", 1, [1], [], 0, 0, [])], map[1 := "A"])

  /** `OneMemberTeam` with player 2 invited. */
  const InvitedTeam: State :=
    State(map["A" := Team("A", 1, [1], [2], 0, 0, [])], map[1 := "A"])

  /** Player 1 registers "A" on the empty registry. */
  lemma RegisterReachesOneMemberTeam()
    ensures Register(Empty, 1, ["A"]) == Done(OneMemberTeam)
    ensures Valid(OneMemberTeam)
  {
  }

  /** Player 1, leading "A" alone, invites player 2. */
  lemma InviteReachesInvitedTeam()
    ensures Invite(OneMemberTeam, 1, 2) == Done(InvitedTeam)
    ensures Valid(InvitedTeam)
  {
    RegisterReachesOneMemberTeam();
    var s1, t1 := OneMemberTeam, OneMemberTeam.teams["A"];
    LookupsFollowIndex(s1, 1);
    assert GetTeam(s1, 1) == Found(t1);
    assert t1.invites + [2] == [2];
    assert s1.teams["A" := t1.(invites := [2])] == InvitedTeam.teams;
    InvitePreservesValid(s1, 1, 2);
  }

  /** Player 2 accepts the invitation to "A". */
  lemma AcceptReachesTwoMemberTeam()
    ensures Accept(InvitedTeam, 2, ["A"]) == Done(TwoMemberTeam)
  {
    var t2 := InvitedTeam.teams["A"];
    assert Join(["A"]) == "A";
    assert !IsOnTeam(InvitedTeam, 2) && TeamExists(InvitedTeam, "A");
    assert RemoveFirst(t2.invites, 2) == [];
    assert t2.members + [2] == [1, 2];
  }

  /** Player 1 registers "A" and invites player 2, who accepts: that reaches `TwoMemberTeam`. */
  lemma TwoMemberTeamIsReachable()
    ensures Valid(TwoMemberTeam)
    ensures
      var r1 := Register(Empty, 1, ["A"]);
      && r1.Done? && WellFormed(r1.state)
      && Invite(r1.state, 1, 2).Done?
      && Accept(Invite(r1.state, 1, 2).state, 2, ["A"]) == Done(TwoMemberTeam)
  {
    RegisterReachesOneMemberTeam();
    InviteReachesInvitedTeam();
    AcceptReachesTwoMemberTeam();
    AcceptPreservesValid(InvitedTeam, 2, ["A"]);
  }

  /**
   From `TwoMemberTeam`, player 1 kicks player 2. With the cog's kick, 2 is
   stranded and cannot register a team of their own; with the intended kick,
   2 can.
   */
  lemma StrandedPlayerExample()
    ensures
      var s := TwoMemberTeam;
      && WellFormed(s)
      && KickAsWritten(s, 1, 2).Raised?
      && Register(KickAsWritten(s, 1, 2).state, 2, ["B"]) == Refused(AlreadyOnTeam)
      && Kick(s, 1, 2).Done?
      && Register(Kick(s, 1, 2).state, 2, ["B"]).Done?
  {
    var s := TwoMemberTeam;
    TwoMemberTeamIsReachable();
    assert Join(["B"]) == "B";
    KickAsWrittenStrandsTarget(s, 1, 2, ["B"]);
    LookupsFollowIndex(s, 1);
    KickPreservesValid(s, 1, 2);
  }
}

=== FILE: registry.dfy ===
/**
 The state of the tournament cog: the `teams` document (team name to team
 record) and the `players` document (member id to team name), with the
 read-only queries the commands are built from and the invariants that tie
 the two documents together.
 */
module Registry {
  import opened Builtins

  /** A Discord user id. The players document keys it by `str(id)`; that
      conversion is injective, so the model keys the index by the id itself. */
  type PlayerId = int

  type TeamName = string

  datatype Option<T> = None | Some(value: T)

  /** A played game in the documented record shape; no command of the cog creates one. */
  datatype Game = Game(team1: TeamName, team2: TeamName, winner: TeamName, team1Wins: int, team2Wins: int)

  /** One entry of the teams document. `members` and `invites` are the JSON lists, in insertion order. */
  datatype Team = Team(
    name: TeamName,
    leader: PlayerId,
    members: seq<PlayerId>,
    invites: seq<PlayerId>,
    wins: int,
    losses: int,
    games: seq<Game>)

  datatype State = State(teams: map<TeamName, Team>, players: map<PlayerId, TeamName>)

  /** Both documents empty: the registry before any team is registered. */
  const Empty: State := State(map[], map[])

  /**
   `is_on_team` asks the players index only. Under the invariant that is the
   same as asking whether some team lists the id.
   */
  function IsOnTeam(s: State, id: PlayerId): (r: bool)
    ensures Valid(s) ==> (r <==> exists n :: Holds(s, n, id))
  {
    assert Valid(s) && id in s.players ==> Holds(s, s.players[id], id);
    id in s.players
  }

  /**
   `team_exists` asks the teams document only. Under the invariant a team
   always lists its leader, so a name exists exactly when some player is on it.
   */
  function TeamExists(s: State, name: TeamName): (r: bool)
    ensures Valid(s) ==> (r <==> exists id :: Holds(s, name, id))
  {
    assert Valid(s) && name in s.teams ==> Holds(s, name, s.teams[name].leader);
    name in s.teams
  }

  /** The team stored under `name` lists `id` among its members. */
  predicate Holds(s: State, name: TeamName, id: PlayerId) {
    name in s.teams && id in s.teams[name].members
  }

  // ---------------------------------------------------------------------
  // Invariants
  // ---------------------------------------------------------------------

  /** Every team is stored under its own name. */
  ghost predicate KeysAreNames(s: State) {
    forall n :: n in s.teams ==> s.teams[n].name == n
  }

  /** No id is a member of two teams. */
  ghost predicate OneTeamEach(s: State) {
    forall n, m, id :: Holds(s, n, id) && Holds(s, m, id) ==> n == m
  }

  /**
   The part of the invariant the lookups rely on: `get_team_name` scans the
   teams in dict order and returns the first that lists the id, which is
   order-independent exactly when no id is listed twice.
   */
  ghost predicate WellFormed(s: State) {
    KeysAreNames(s) && OneTeamEach(s)
  }

  /** Every indexed id is a member of the team the index names. */
  ghost predicate IndexSound(s: State) {
    forall id :: id in s.players ==> Holds(s, s.players[id], id)
  }

  /** Every member of every team is indexed to that team. */
  ghost predicate IndexComplete(s: State) {
    forall n, id :: Holds(s, n, id) ==> id in s.players && s.players[id] == n
  }

  /** The leader is a member, nobody is listed twice, and nobody is both invited and a member. */
  ghost predicate TeamOk(t: Team) {
    && t.leader in t.members
    && NoDup(t.members)
    && NoDup(t.invites)
    && (forall id :: id in t.invites ==> id !in t.members)
  }

  ghost predicate AllTeamsOk(s: State) {
    forall n :: n in s.teams ==> TeamOk(s.teams[n])
  }

  /** The registry invariant every command is meant to keep. */
  ghost predicate Valid(s: State) {
    && WellFormed(s)
    && IndexSound(s)
    && IndexComplete(s)
    && AllTeamsOk(s)
  }

  /**
   The weaker invariant the cog's commands keep as written, its own kick
   included: the lookups' requirement, every listed member indexed to their
   team, and no member listed twice. The index may still name ids that no
   team lists, which is what the cog's kick leaves behind.
   */
  ghost predicate Consistent(s: State) {
    && WellFormed(s)
    && IndexComplete(s)
    && forall n :: n in s.teams ==> NoDup(s.teams[n].members)
  }

  // ---------------------------------------------------------------------
  // Queries
  // ---------------------------------------------------------------------

  /**
   `get_team_name`: `None` for an unindexed id; otherwise the name of the
   team that lists the id, or `None` when no team does.
   */
  function GetTeamName(s: State, id: PlayerId): (r: Option<TeamName>)
    requires WellFormed(s)
    ensures r.Some? <==> IsOnTeam(s, id) && exists n :: Holds(s, n, id)
    ensures r.Some? ==> Holds(s, r.value, id)
  {
    if !IsOnTeam(s, id) then None
    else if exists n | n in s.teams :: Holds(s, n, id) then
      var n :| n in s.teams && Holds(s, n, id);
      Some(s.teams[n].name)
    else None
  }

  /** The three ways `get_team` can end. */
  datatype Lookup =
    | Unindexed          // returns None
    | Dangling           // indexed, but no team lists the id: `teams[None]` raises KeyError
    | Found(team: Team)

  /** `get_team`: the team record of the team that lists `id`. */
  function GetTeam(s: State, id: PlayerId): (r: Lookup)
    requires WellFormed(s)
    ensures r.Unindexed? <==> !IsOnTeam(s, id)
    ensures r.Dangling? <==> IsOnTeam(s, id) && forall n :: !Holds(s, n, id)
    ensures r.Found? ==> Holds(s, r.team.name, id) && s.teams[r.team.name] == r.team
  {
    if !IsOnTeam(s, id) then Unindexed
    else match GetTeamName(s, id)
      case None => Dangling
      case Some(n) => Found(s.teams[n])
  }

  /** `create_new_team`: a fresh record whose leader is its only member. */
  function CreateNewTeam(name: TeamName, leader: PlayerId): (t: Team)
    ensures TeamOk(t)
    ensures t.name == name && t.leader == leader
    ensures Elems(t.members) == {leader} && t.invites == []
    ensures t.wins == 0 && t.losses == 0 && t.games == []
  {
    Team(name, leader, [leader], [], 0, 0, [])
  }

  // ---------------------------------------------------------------------
  // Facts about the invariants
  // ---------------------------------------------------------------------

  /** The empty registry satisfies the invariant. */
  lemma EmptyIsValid()
    ensures Valid(Empty)
  {
  }

  /**
   Under the invariant the index and the lookups agree: an id is indexed
   exactly when some team lists it, and then `get_team_name` and `get_team`
   return the team the index names.
   */
  lemma LookupsFollowIndex(s: State, id: PlayerId)
    requires Valid(s)
    ensures IsOnTeam(s, id) <==> exists n :: Holds(s, n, id)
    ensures IsOnTeam(s, id) ==> GetTeamName(s, id) == Some(s.players[id])
    ensures IsOnTeam(s, id) ==> GetTeam(s, id) == Found(s.teams[s.players[id]])
    ensures !IsOnTeam(s, id) ==> GetTeamName(s, id) == None && GetTeam(s, id) == Unindexed
  {
  }
}

=== FILE: session.dfy ===
/**
 A sequence of commands as the cog receives them, one at a time. With the
 intended kick the registry invariant holds after every step. With the cog's
 own kick the weaker `Consistent` holds after every step, even where a
 command raises. Either way every reachable state is one the lookups are
 defined on.
 */
module Session {
  import opened Registry
  import opened Commands
  import opened Invariants

  /** One invocation of a command, with the actor and argument already resolved. */
  datatype Command =
    | RegisterCmd(actor: PlayerId, args: seq<string>)
    | InviteCmd(actor: PlayerId, target: PlayerId)
    | AcceptCmd(actor: PlayerId, args: seq<string>)
    | UninviteCmd(actor: PlayerId, target: PlayerId)
    | RejectCmd(actor: PlayerId, args: seq<string>)
    | LeaveCmd(actor: PlayerId, args: seq<string>)
    | DisbandCmd(actor: PlayerId, args: seq<string>)
    | KickCmd(actor: PlayerId, target: PlayerId)

  /**
   Runs one command on a registry that satisfies the invariant. A refusal
   leaves the registry alone, and the only exception left is the KeyError of
   a command naming a team that does not exist, which changes nothing.
   */
  function Step(s: State, c: Command): (r: Outcome)
    requires Valid(s)
    ensures r.Done? ==> Valid(r.state)
    ensures r.Raised? ==> r == Raised(s, NoSuchTeam)
  {
    match c
    case RegisterCmd(actor, args) =>
      RegisterPreservesValid(s, actor, args);
      Register(s, actor, args)
    case InviteCmd(actor, target) =>
      InvitePreservesValid(s, actor, target);
      Invite(s, actor, target)
    case AcceptCmd(actor, args) =>
      AcceptPreservesValid(s, actor, args);
      Accept(s, actor, args)
    case UninviteCmd(actor, target) =>
      UninvitePreservesValid(s, actor, target);
      Uninvite(s, actor, target)
    case RejectCmd(actor, args) =>
      RejectPreservesValid(s, actor, args);
      Reject(s, actor, args)
    case LeaveCmd(actor, args) =>
      LeavePreservesValid(s, actor, args);
      Leave(s, actor, args)
    case DisbandCmd(actor, args) =>
      DisbandPreservesValid(s, actor, args);
      Disband(s, actor, args)
    case KickCmd(actor, target) =>
      KickPreservesValid(s, actor, target);
      Kick(s, actor, target)
  }

  /** The registry after a command: the new state when it ran, the old one otherwise. */
  function After(s: State, r: Outcome): State {
    if r.Refused? then s else r.state
  }

  /** Runs the commands in order; the invariant holds of the registry at the end. */
  function Run(s: State, cs: seq<Command>): (r: State)
    requires Valid(s)
    ensures Valid(r)
    decreases |cs|
  {
    if |cs| == 0 then s
    else Run(After(s, Step(s, cs[0])), cs[1..])
  }

  /**
   Runs one command as the cog is written, with its own kick. Every registry
   it leaves, including the one an exception leaves, satisfies `Consistent`,
   so the lookups stay defined. Only the kick raises on the index; any other
   exception changes nothing.
   */
  function StepAsWritten(s: State, c: Command): (r: Outcome)
    requires Consistent(s)
    ensures !r.Refused? ==> Consistent(r.state)
    ensures r.Raised? && r.fault == MissingPlayerKey ==> c.KickCmd?
    ensures r.Raised? && r.fault != MissingPlayerKey ==> r.state == s
  {
    match c
    case RegisterCmd(actor, args) =>
      RegisterKeepsConsistent(s, actor, args);
      Register(s, actor, args)
    case InviteCmd(actor, target) =>
      InviteKeepsConsistent(s, actor, target);
      Invite(s, actor, target)
    case AcceptCmd(actor, args) =>
      AcceptKeepsConsistent(s, actor, args);
      Accept(s, actor, args)
    case UninviteCmd(actor, target) =>
      UninviteKeepsConsistent(s, actor, target);
      Uninvite(s, actor, target)
    case RejectCmd(actor, args) =>
      RejectKeepsConsistent(s, actor, args);
      Reject(s, actor, args)
    case LeaveCmd(actor, args) =>
      LeaveKeepsConsistent(s, actor, args);
      Leave(s, actor, args)
    case DisbandCmd(actor, args) =>
      DisbandKeepsConsistent(s, actor, args);
      Disband(s, actor, args)
    case KickCmd(actor, target) =>
      KickAsWrittenKeepsConsistent(s, actor, target);
      KickAsWritten(s, actor, target)
  }

  /**
   Runs the commands as the cog is written, keeping whatever state an
   exception leaves in memory. Every registry reached satisfies `Consistent`.
   */
  function RunAsWritten(s: State, cs: seq<Command>): (r: State)
    requires Consistent(s)
    ensures Consistent(r)
    decreases |cs|
  {
    if |cs| == 0 then s
    else RunAsWritten(After(s, StepAsWritten(s, cs[0])), cs[1..])
  }
}
